=== FILE: README.md ===
# Storefront business rules in Dafny

This project models the request handlers of a small Flask storefront (`app.py`)
as one abstract state machine. The state is the database (users keyed by
email; items, feedback, orders and order lines keyed by integer id) plus the
visitor's signed session (logged-in email, role and cart). Each
state-changing handler is a pure function from a `State` to a `Step`: an outcome (`Pass`, or `Fail` with
a reason naming the check that refused the request) and the next state. The
source displays only some of these reasons. A missing feedback text
(`EmptyText`) re-renders the blank form, and a checkout with no cart rows
(`EmptyCart`) re-renders the cart page, both without a message. A refused
gate (`NotAuthorized`) is a silent redirect to the login page. Every `Fail`
leaves the state exactly as it was. The two read-only pages are queries
instead: the feedback listing (`Feedbacks.Visible`) is a function of the
store and the session that returns the rows shown, and the cart page
(`Shop.ViewCart`) is a method that returns the page's rows and total or the
reason it was refused.

The model threads one session through the handlers, one request after
another; see "## Left out" for what that leaves aside.

Modules:

- `Wrappers`: `Option`, `Result` and `Outcome`.
- `Decimal`: `str()` of an item id and `int()` of a cart key, with the round trip between them.
- `Ids`: the id SQLite gives a new row: one more than the largest id in the table, or 1 when the table is empty.
- `Cart`: the session cart. Within one request it is a Python dict: it holds each key once and keeps insertion order, so it is a sequence of `(key, quantity)` entries with distinct keys (`Dict`). `Get` models `cart.get(key, 0)` and `Put` models `cart[key] = v`. Between requests the cart lives in the session cookie, which Flask writes as JSON with sorted keys. So the cart a request reads back has its keys in ascending string order (`Cart`), and `Save` models that write.
- `Schema`: the tables, the session, the error reasons, the `is_logged_in` / `is_admin` gates (`LoggedIn`, `IsAdmin`; `Shopper` is "logged in and not an admin"), and the `Valid` invariant.
- `Accounts`: register, login and logout.
- `Shop`: add-to-cart, the cart page (resolution and total) and checkout.
- `Feedbacks`: the feedback listing, submission, approval and rejection.
- `Orders`: order deletion, which cascades to the order's lines.
- `Invariants`: every handler preserves `Valid`. `Valid` means:
  - every cart key is `str(id)` of some id, with a quantity of at least 1;
  - no order line outlives its order;
  - the session names a registered user and carries that user's role.

The order lines live in a table of their own, as in the source. So the cascade
of `delete_order` is a property proved about the tables, not something the
data layout gives for free.

Password hashing is a parameter. `hash` stands for `generate_password_hash`
and `checkHash` for `check_password_hash`.

The login test at `app.py:118` also accepts a password equal to the stored
text itself. The model keeps this as written (`PasswordAccepted`) rather than removing it.
`Accounts.StoredTextLogsIn` states its consequence: for a registered user the
stored text is the hash, so anyone who knows the hash can log in without the
password. The seeded admin (`app.py:278`) has a plain-text password and relies
on this fallback.

## Model

| member | source | states |
|---|---|---|
| `Accounts.Register` | app.py:91-110 | Each failure happens exactly when its check is the first to fail, in the source's order: any field missing or empty, then the password differing from the confirmation, then the email already registered. Success happens exactly when all three checks pass. A failure changes nothing. Success adds exactly one user under the new email, with the hashed password and the default role `'user'`. No other user or table changes, and the session is untouched. |
| `Accounts.Login` | app.py:112-125 | Succeeds exactly when the email is registered and its password passes the hash check or equals the stored text. Success puts the email and that user's role into the session and keeps the cart. Failure reports bad credentials and changes nothing. |
| `Accounts.Logout` | app.py:127-131 | Clears the whole session: the next session is the empty one, so the visitor is neither logged in nor an admin and the cart is empty. The database is unchanged. |
| `Accounts.PasswordAccepted` | app.py:118 | The password test of login: the hash check accepts the given password, or the given password equals the stored text. |
| `Accounts.RegisterThenLogin` | app.py:103-120 | A fresh registration followed by a login with the same password succeeds, when the hash check accepts the hash of that password. The session then holds that email with the customer role. |
| `Accounts.StoredTextLogsIn` | app.py:118 | A registered user can be logged into by presenting the stored password text (the hash), whatever the hash check says. |
| `Accounts.EmailsStayUnique` | app.py:101-106 | Registering an email a second time fails with the duplicate-email error, and the first registration's row stays as it was. |
| `Decimal.ShowForm` | app.py:165 | `str()` of an id writes a minus sign exactly for a negative id, then at least one digit, with a leading zero only for zero itself. |
| `Decimal.ParseAccepts` | app.py:179 | `Parse`, the model of `int()` on a cart key, succeeds exactly on at least one ASCII digit, optionally after a minus sign. Only a signed key reads as negative, and digits alone read as their decimal value. |
| `Decimal.Show` | app.py:165 | `str()` of an int. Its digits come from `ShowNat`, whose contract says the first digit is `'0'` exactly for zero. |
| `Decimal.Parse` | app.py:179 | `int()` of a cart key: an optional minus sign and decimal digits, anything else refused. `ParseAccepts` states what it accepts and `ParseShow` that it inverts `Show`. |
| `Decimal.ParseShow` | app.py:165-179 | Reading back with `int()` the key that `str()` wrote for an id gives that id, negative ids included. |
| `Decimal.ShowCanonical` | app.py:165-179 | Every key written by `str()` of an id is canonical: `int()` reads an id from it, and `str()` of that id gives the key back. |
| `Decimal.ShowInjective` | app.py:165 | Distinct item ids get distinct cart keys. |
| `Schema.LoggedIn` | app.py:59-60 | `is_logged_in()`: the session holds a user email. |
| `Schema.IsAdmin` | app.py:62-63 | `is_admin()`: the session's role is `'admin'`. |
| `Schema.Shopper` | app.py:154 | The gate of the cart, checkout and feedback-submission pages (also `app.py:140` and `app.py:173`): logged in and not an admin. |
| `Schema.Present` | app.py:97 | A form field passes `if field` (here and at `app.py:144`) when it was sent and is not empty. |
| `Ids.NextId` | app.py:185-187 | A new row's id is not in use and is greater than every id in use. It is 1 for an empty table, and otherwise one more than the largest id. |
| `Cart.Get` | app.py:165 | `cart.get(key, 0)`: the quantity stored under the key, or 0 when the key is absent. |
| `Cart.Put` | app.py:165 | `cart[key] = v` on the dict of one request. The key set grows by exactly the key. The key then maps to `v` and every other key keeps its quantity. A present key is rewritten in place, with the order of keys unchanged. A new key is appended at the end. |
| `Cart.LexLe` | app.py:166 | Python's `<=` on `str`: lexicographic by code point, a prefix coming first. `LexLeTotal`, `LexLeAntisymmetric` and `LexLeTransitive` make it a total order. |
| `Cart.LexLeTotal` | app.py:166 | Any two strings are comparable: one is `<=` the other. |
| `Cart.LexLeAntisymmetric` | app.py:166 | Two strings each `<=` the other are equal. |
| `Cart.LexLeTransitive` | app.py:166 | `<=` on strings is transitive. |
| `Cart.Before` | app.py:166 | Python's `<` on `str`, the order the session write sorts cart keys in (JSON with sorted keys). |
| `Cart.BeforeTrichotomy` | app.py:166 | Of two distinct strings exactly one comes before the other. |
| `Cart.BeforeTransitive` | app.py:166 | `<` on strings is transitive, so with trichotomy it is a strict total order on cart keys. |
| `Cart.Insert` | app.py:166 | Placing one entry into a key-sorted cart that lacks its key gives a key-sorted cart holding exactly the old entries and the new one. |
| `Cart.Save` | app.py:166 | Writing the session: the saved cart has its keys in ascending string order and holds exactly the dict's entries, no more and no fewer. |
| `Cart.SaveKeepsContents` | app.py:166 | Saving keeps every key and every quantity: `get` on the saved cart answers as on the dict, for every key. |
| `Cart.AscendingUnique` | app.py:166 | Two key-sorted carts with the same entries are equal. So the saved order depends only on the contents. |
| `Cart.SaveKeepsCart` | app.py:164-166 | Saving a cart just read from the session, unchanged, writes it back exactly as it was. |
| `Cart.Add` | app.py:164-166 | `cart[str(item_id)] = cart.get(str(item_id), 0) + quantity` followed by the session write. The key's quantity rises by exactly `quantity`, an absent key counting as 0. Every other key keeps its quantity. The key set gains the key, and the cart grows by one entry exactly when the key was new. |
| `Shop.AddToCart` | app.py:152-168 | Fails for anyone who is not a logged-in non-admin. Fails as invalid exactly when the item does not exist or the quantity is below 1. A failure changes nothing. Succeeds exactly when neither check fails. On success that item's quantity rises by exactly `quantity`, an absent key counting as 0. Every other key keeps its quantity. The cart grows by one entry exactly when the key was new. The saved cart has its keys in ascending string order. Database, user and role are unchanged. |
| `Shop.Resolve` | app.py:175-183 | Resolving the cart fails exactly when some key is not a number, and the failure is the malformed-cart error. Otherwise it yields at most one row per entry. |
| `Shop.ResolveCount` | app.py:178-183 | The cart page has exactly as many rows as there are entries naming an existing item. Entries whose item is gone are dropped. |
| `Shop.ResolveSound` | app.py:178-183 | Every row of the cart page describes some cart entry: the entry's item id, that item's current name and price, the entry's quantity, and price times quantity as the row total. |
| `Shop.ResolveComplete` | app.py:178-183 | Every entry naming an existing item has its row. The row's position equals the number of such entries before it, so rows follow cart order (ascending key order, as the session stores it). |
| `Shop.LineTotals` | app.py:181-183 | Each row's `total_price` is its own price times its own quantity. |
| `Shop.Subtotal` | app.py:177-182 | The running `total` of the cart page: price times quantity, summed over the rows. `ViewCart` states that the page's total is this sum. |
| `Shop.ViewCart` | app.py:171-183 | The loop of the cart page. Non-shoppers are turned away and a malformed key fails the page. Otherwise the rows are the resolution of the cart, and `total` is the sum of price times quantity over those rows. |
| `Shop.Snapshot` | app.py:188-189 | The new order-line rows hold exactly the consecutive ids starting at `base`, one per cart-page row. Row `j` carries the order id and row `j`'s item name, quantity and price. |
| `Shop.PlaceOrder` | app.py:185-190 | Inserting the order row and one line per cart-page row under the next free ids. `PlaceOrderFacts` states its contract. |
| `Shop.PlaceOrderFacts` | app.py:185-190 | Placing an order takes a fresh order id and records the user's email under it. Its lines take fresh consecutive ids, one per row. Every existing order and order line is kept unchanged, and no other table is touched. |
| `Shop.Checkout` | app.py:184-193 | Non-shoppers are turned away and a malformed key fails. A cart with no rows on its page fails as empty and keeps the cart. Success happens exactly for a shopper whose cart resolves to at least one row. Every failure changes nothing. Success adds exactly one order for the session's email and one line per cart-page row, copying that row's name, quantity and price. Old orders and lines are kept, the cart is removed, and users, items, feedback and the login stay as they were. |
| `Shop.SnapshotSound` | app.py:188-189 | Every snapshot row copies some cart entry's quantity and its item's name and price. |
| `Shop.SnapshotRow` | app.py:188-189 | Every cart entry naming an existing item has its snapshot row at `base` plus the number of such entries before it. |
| `Shop.PlacedLineIds` | app.py:184-190 | The lines added by placing an order are exactly the ids from `base` up to `base` plus the number of cart entries naming an existing item. |
| `Shop.PlacedLinesSound` | app.py:184-190 | Every line added by placing an order is the snapshot of some cart entry against the catalogue. |
| `Shop.PlacedLinesComplete` | app.py:184-190 | Every cart entry naming an existing item gets a new line, in cart order, holding its snapshot. |
| `Shop.CheckoutLineIds` | app.py:184-191 | After a successful checkout, the new order lines are exactly one id block, one id for each cart entry that names an existing item. |
| `Shop.CheckoutLinesSound` | app.py:184-191 | After a successful checkout, every new order line copies some cart entry's quantity and its item's name and price at checkout time. |
| `Shop.CheckoutLinesComplete` | app.py:184-191 | After a successful checkout, every cart entry naming an existing item has its own new line, in cart order. |
| `Feedbacks.Visible` | app.py:133-136 | The listing shows rows of the table unchanged. A row is shown exactly when the viewer is an admin or the row is approved. |
| `Feedbacks.AddFeedback` | app.py:138-150 | Fails for anyone who is not a logged-in non-admin. Fails exactly when the text is missing or empty. Succeeds exactly for a shopper with text. A failure changes nothing. Success adds exactly one row under a fresh id, signed with the session's email, holding the text and not approved. Nothing else changes. |
| `Feedbacks.Approve` | app.py:201-208 | Fails for non-admins and for an unknown id, changing nothing. Succeeds exactly for an admin and an existing id. Success keeps the row, with the same author and text, and marks it approved. No other row and no other table changes. |
| `Feedbacks.Reject` | app.py:210-216 | Fails for non-admins and for an unknown id, changing nothing. Succeeds exactly for an admin and an existing id. Success deletes exactly that row. The table shrinks by one and every other row is unchanged. |
| `Feedbacks.SubmittedAwaitsApproval` | app.py:135-145 | A fresh submission is visible to a viewer exactly when the viewer is an admin. It changes no other row's visibility. |
| `Feedbacks.ApprovedIsPublic` | app.py:201-205 | An approved row is visible to every viewer, with its author and text unchanged. |
| `Feedbacks.RejectedIsGone` | app.py:210-214 | A rejected row is visible to nobody, and every other row's visibility is unchanged. |
| `Orders.RemoveOrder` | app.py:34-38 | Deleting an order with the cascade removes that order and exactly the lines whose order id it is. Every other order and line is kept unchanged. No line of the deleted order remains. |
| `Orders.DeleteOrder` | app.py:259-267 | Fails for non-admins and for an unknown id, changing nothing. Succeeds exactly for an admin and an existing order. Success deletes the order and all its lines, keeps every other order and line unchanged, and touches no other table or the session. |
| `Orders.RemoveUndoesPlace` | app.py:34-38 | On tables without orphan lines, deleting the order just placed restores the tables exactly. The placed lines are all that order owns. |
| `Orders.DeleteUndoesCheckout` | app.py:259-265 | An admin deleting the order a checkout just created succeeds and gives back the store exactly as it was before the checkout. |
| `Invariants.InitialValid` | app.py:274-286 | A fresh visitor on a store without order lines (the seeded store) is in a valid state. |
| `Invariants.RegisterPreservesValid` | app.py:91-110 | Registration keeps the state valid. |
| `Invariants.LoginPreservesValid` | app.py:112-125 | Login keeps the state valid. The session then names a registered user with that user's role. |
| `Invariants.LogoutPreservesValid` | app.py:127-131 | Logout keeps the state valid. |
| `Invariants.AddToCartPreservesValid` | app.py:152-168 | Adding to the cart keeps every key a `str()` of an id and every quantity at least 1. |
| `Invariants.AddKeepsCanonical` | app.py:164-166 | Adding a quantity of at least 1 under `str(item_id)` and saving keeps every key of a canonical cart canonical and every quantity at least 1. |
| `Invariants.CheckoutPreservesValid` | app.py:184-193 | Checkout keeps the state valid. |
| `Invariants.AddFeedbackPreservesValid` | app.py:138-150 | Feedback submission keeps the state valid. |
| `Invariants.ApprovePreservesValid` | app.py:201-208 | Approval keeps the state valid. |
| `Invariants.RejectPreservesValid` | app.py:210-216 | Rejection keeps the state valid. |
| `Invariants.DeleteOrderPreservesValid` | app.py:259-267 | Order deletion keeps the state valid: the cascade leaves no orphan lines. |
| `Invariants.ValidCartResolves` | app.py:175-179 | In a valid state the cart page never fails on a key, and it lists each item at most once. |
| `Invariants.DistinctIds` | app.py:164-183 | A cart whose keys are canonical resolves to rows with pairwise distinct item ids. |

## Left out

- Routing, redirects, `flash` messages and template rendering. A redirect to the login page becomes the `NotAuthorized` outcome. A re-rendered form with an error message becomes the matching `Fail` reason.
- SQLAlchemy sessions, `flush` and `commit`. Each handler is one atomic transition. `get_or_404` becomes the `NotFound` outcome.
- Password hashing. `generate_password_hash` and `check_password_hash` are function parameters (`hash`, `checkHash`).
- The exchange-rate lookup (`app.py:43-57`) and the two context processors (`app.py:65-76`). They make a network call, parse floats and only feed templates.
- The read-only pages: the item catalogue (`app.py:82-85`), the admin feedback list (`app.py:196-199`) and the admin order list (`app.py:269-272`). They list whole tables without any rule.
- Admin item add, edit and delete (`app.py:218-257`). They assign form fields behind the admin gate with no rule of their own. The model's item table can hold any rows, so carts holding ids of deleted items are covered.
- The seed block (`app.py:274-286`). Only its consequence is modelled: `Invariants.InitialValid` starts from a store without order lines.
- Shop.Checkout: quantities and ids are unbounded integers. SQLite's INTEGER column (`app.py:40`) holds 64 bits, so an over-large quantity makes the commit at `app.py:189-190` raise and leaves the cart in place; that failure is not modelled.
- Shop.AddToCart: an item id outside SQLite's signed 64-bit range makes the lookup at `app.py:160` raise (a server error). The model reports `InvalidData` for it instead, since no item has that id; the state is unchanged either way.
- Feedbacks.Approve: a feedback id outside SQLite's signed 64-bit range makes `get_or_404` at `app.py:203` raise (a server error). The model reports `NotFound` instead; the state is unchanged either way.
- Feedbacks.Reject: a feedback id outside SQLite's signed 64-bit range makes `get_or_404` at `app.py:212` raise (a server error). The model reports `NotFound` instead; the state is unchanged either way.
- Orders.DeleteOrder: an order id outside SQLite's signed 64-bit range makes `get_or_404` at `app.py:263` raise (a server error). The model reports `NotFound` instead; the state is unchanged either way.
- Concurrent and replayed requests. The session lives in the visitor's cookie, and the model handles one request at a time with one session threaded through. Two overlapping requests from one visitor each read the same cart (`app.py:164`) and write their own (`app.py:166`), and the later response wins. So an add-to-cart can be lost, and `Shop.AddToCart`'s exact increment does not hold across such a race. A client can also resend an older cookie, for example the one from before a checkout, and check out the same cart again (`app.py:184-191`). `Valid` still holds for a replayed session, because no handler deletes or changes a user.
- Shop.AddToCart: takes the item id and quantity already converted to integers. `int()` on a form field that is missing or not a number raises in the source (a server error), and that path is not modelled.
- Decimal.Parse: accepts an optional minus sign followed by decimal digits. Python's `int()` is more lenient (surrounding whitespace, a leading `+`, `_` between digits, non-ASCII decimal digits such as Arabic-Indic ones). That leniency is not modelled because every key the application itself writes is `str()` of an int.
- Shop.Resolve: a cart key that `int()` rejects raises in the source. In the model it is the `MalformedCart` failure. `Invariants.ValidCartResolves` shows this cannot happen in a valid state.
- Prices are integers. The source stores `Item.price` as a float and `OrderItem.price` in an integer column. Float arithmetic and that column's coercion are not modelled, so line totals and the cart total are exact integer sums.
- `Schema.Role` has only the two roles the source uses (`'user'`, `'admin'`). A role column holding any other string is not modelled.
- Accounts.Login: takes the email and password as strings. A form without an email looks up `None`, which matches no user; that is the model's unknown-email case. A form without a password but with a registered email reaches the hash check with `None` (`app.py:117-118`). That raises for a hashed password and fails as bad credentials for the plain-text seeded admin. The model does not represent that path.

=== FILE: accounts.dfy ===
/**
 * Registration, login and logout. Password hashing is not modelled: `hash`
 * stands for generate_password_hash and `checkHash` for check_password_hash.
 */
module Accounts {
  import opened Wrappers
  import opened Schema

  /**
   * POST /register. The checks run in order: every field given, the two
   * passwords equal, the email not yet taken. Only then is a user added,
   * with the default role.
   */
  function Register(s: State, email: Option<string>, password: Option<string>,
                    confirm: Option<string>, hash: string -> string): (r: Step)
    ensures r.outcome == Fail(MissingFields) <==>
      !(Present(email) && Present(password) && Present(confirm))
    ensures r.outcome == Fail(PasswordMismatch) <==>
      Present(email) && Present(password) && Present(confirm) && password != confirm
    ensures r.outcome == Fail(DuplicateEmail) <==>
      Present(email) && Present(password) && password == confirm && email.value in s.db.users
    ensures r.outcome.Pass? <==>
      Present(email) && Present(password) && Present(confirm) && password == confirm
      && email.value !in s.db.users
    ensures r.outcome.Fail? ==> r.next == s
    ensures r.outcome.Pass? ==>
      && email.value !in s.db.users
      && r.next.db.users.Keys == s.db.users.Keys + {email.value}
      && |r.next.db.users| == |s.db.users| + 1
      && r.next.db.users[email.value] == User(hash(password.value), Customer)
      && (forall e :: e in s.db.users ==> r.next.db.users[e] == s.db.users[e])
      && r.next.db == s.db.(users := r.next.db.users)
      && r.next.session == s.session
  {
    if !(Present(email) && Present(password) && Present(confirm)) then
      Step(Fail(MissingFields), s)
    else if password != confirm then
      Step(Fail(PasswordMismatch), s)
    else if email.value in s.db.users then
      Step(Fail(DuplicateEmail), s)
    else
      var users := s.db.users[email.value := User(hash(password.value), Customer)];
      Step(Pass, s.(db := s.db.(users := users)))
  }

  /**
   * The password test of POST /login: the hash check, or else plain equality
   * with the stored text.
   */
  predicate PasswordAccepted(stored: string, given: string, checkHash: (string, string) -> bool) {
    checkHash(stored, given) || stored == given
  }

  /**
   * POST /login. A registered email with an accepted password puts the email
   * and its role into the session; the cart is left alone.
   */
  function Login(s: State, email: string, password: string,
                 checkHash: (string, string) -> bool): (r: Step)
    ensures r.outcome.Pass? <==>
      email in s.db.users && PasswordAccepted(s.db.users[email].password, password, checkHash)
    ensures r.outcome.Fail? ==> r.outcome.error == BadCredentials && r.next == s
    ensures r.outcome.Pass? ==>
      && r.next.session.user == Some(email)
      && r.next.session.role == Some(s.db.users[email].role)
      && r.next.session.cart == s.session.cart
      && r.next.db == s.db
  {
    if email in s.db.users && PasswordAccepted(s.db.users[email].password, password, checkHash) then
      var session := s.session.(user := Some(email), role := Some(s.db.users[email].role));
      Step(Pass, s.(session := session))
    else
      Step(Fail(BadCredentials), s)
  }

  /** GET /logout: the whole session is cleared, cart included. */
  function Logout(s: State): (r: Step)
    ensures r.outcome.Pass?
    ensures r.next.session == EmptySession
    ensures r.next.db == s.db
  {
    Step(Pass, s.(session := EmptySession))
  }

  /**
   * Registering and then logging in with the same password succeeds, as long
   * as the hash check recognises the hash of that password.
   */
  lemma RegisterThenLogin(s: State, email: string, password: string,
                          hash: string -> string, checkHash: (string, string) -> bool)
    requires |email| > 0 && |password| > 0
    requires email !in s.db.users
    requires checkHash(hash(password), password)
    ensures var r1 := Register(s, Some(email), Some(password), Some(password), hash);
      && r1.outcome.Pass?
      && var r2 := Login(r1.next, email, password, checkHash);
      && r2.outcome.Pass?
      && r2.next.session.user == Some(email)
      && r2.next.session.role == Some(Customer)
  {
  }

  /**
   * The fallback in the password test: whoever presents the stored password
   * text itself is let in, whatever the hash check says. For a registered
   * user that text is the password hash, so knowing the hash is enough.
   */
  lemma StoredTextLogsIn(s: State, email: string, checkHash: (string, string) -> bool)
    requires email in s.db.users
    ensures Login(s, email, s.db.users[email].password, checkHash).outcome.Pass?
  {
  }

  /** A second registration of the same email is refused and changes nothing. */
  lemma EmailsStayUnique(s: State, email: string, p1: string, p2: string, hash: string -> string)
    requires |email| > 0 && |p1| > 0 && |p2| > 0
    requires email !in s.db.users
    ensures var r1 := Register(s, Some(email), Some(p1), Some(p1), hash);
      && r1.outcome.Pass?
      && var r2 := Register(r1.next, Some(email), Some(p2), Some(p2), hash);
      && r2.outcome == Fail(DuplicateEmail)
      && r2.next.db.users[email] == User(hash(p1), Customer)
  {
  }
}

=== FILE: cart.dfy ===
/**
 * The session cart: a dictionary from item-id keys to quantities.
 *
 * Within one request it is a Python dictionary: it keeps insertion order and
 * holds each key once, so it is a sequence of entries with distinct keys
 * (`Dict`); assigning to a present key rewrites it in place, assigning to a
 * new key appends it. At the end of the request Flask writes the session into
 * its cookie as JSON with sorted keys, so the cart every later request reads
 * back has its keys in ascending string order (`Cart`).
 */
module Cart {
  import opened Wrappers

  datatype Entry = Entry(key: string, qty: int)

  predicate DistinctKeys(c: seq<Entry>) {
    forall i, j :: 0 <= i < j < |c| ==> c[i].key != c[j].key
  }

  /** The cart as a dictionary during one request. */
  type Dict = c: seq<Entry> | DistinctKeys(c) witness []

  /** `a <= b` on Python strings: lexicographic by code point. */
  predicate LexLe(a: string, b: string)
    decreases |a|
  {
    |a| == 0 || (|b| > 0 && (a[0] < b[0] || (a[0] == b[0] && LexLe(a[1..], b[1..]))))
  }

  /** `a < b` on Python strings. */
  predicate Before(a: string, b: string) {
    a != b && LexLe(a, b)
  }

  lemma {:induction false} LexLeTotal(a: string, b: string)
    ensures LexLe(a, b) || LexLe(b, a)
    decreases |a|
  {
    if |a| > 0 && |b| > 0 && a[0] == b[0] {
      LexLeTotal(a[1..], b[1..]);
    }
  }

  lemma {:induction false} LexLeAntisymmetric(a: string, b: string)
    requires LexLe(a, b) && LexLe(b, a)
    ensures a == b
    decreases |a|
  {
    if |a| > 0 {
      LexLeAntisymmetric(a[1..], b[1..]);
      assert a == [a[0]] + a[1..];
      assert b == [b[0]] + b[1..];
    }
  }

  lemma {:induction false} LexLeTransitive(a: string, b: string, c: string)
    requires LexLe(a, b) && LexLe(b, c)
    ensures LexLe(a, c)
    decreases |a|
  {
    if |a| > 0 && a[0] == b[0] && b[0] == c[0] {
      LexLeTransitive(a[1..], b[1..], c[1..]);
    }
  }

  /** Of two distinct strings exactly one comes first. */
  lemma BeforeTrichotomy(a: string, b: string)
    requires a != b
    ensures Before(a, b) <==> !Before(b, a)
  {
    LexLeTotal(a, b);
    if LexLe(a, b) && LexLe(b, a) {
      LexLeAntisymmetric(a, b);
    }
  }

  lemma BeforeTransitive(a: string, b: string, c: string)
    requires Before(a, b) && Before(b, c)
    ensures Before(a, c)
  {
    LexLeTransitive(a, b, c);
    if a == c {
      LexLeAntisymmetric(a, b);
    }
  }

  /** The keys are in strictly ascending string order. */
  predicate Ascending(c: seq<Entry>) {
    forall i, j :: 0 <= i < j < |c| ==> Before(c[i].key, c[j].key)
  }

  /** The cart as the session cookie holds it between requests. */
  type Cart = c: seq<Entry> | Ascending(c) witness []

  function Keys(c: seq<Entry>): set<string> {
    set i | 0 <= i < |c| :: c[i].key
  }

  /** The position of `key` in the cart, if it is there. */
  function Find(c: seq<Entry>, key: string): (r: Option<nat>)
    ensures r.Some? ==> r.value < |c| && c[r.value].key == key
    ensures r.None? ==> forall i :: 0 <= i < |c| ==> c[i].key != key
  {
    if |c| == 0 then None
    else if c[|c| - 1].key == key then Some(|c| - 1)
    else Find(c[..|c| - 1], key)
  }

  /** `cart.get(key, 0)`. */
  function Get(c: Dict, key: string): (v: int)
    ensures key !in Keys(c) ==> v == 0
    ensures forall i :: 0 <= i < |c| && c[i].key == key ==> v == c[i].qty
  {
    match Find(c, key)
    case Some(i) => c[i].qty
    case None => 0
  }

  /** `cart[key] = v`. */
  function Put(c: Dict, key: string, v: int): (r: Dict)
    ensures Keys(r) == Keys(c) + {key}
    ensures forall i :: 0 <= i < |r| ==> r[i] in c || r[i] == Entry(key, v)
    ensures key in Keys(c) ==> |r| == |c| && forall i :: 0 <= i < |c| ==> r[i].key == c[i].key
    ensures key !in Keys(c) ==> r == c + [Entry(key, v)]
    ensures Get(r, key) == v
    ensures forall k :: k != key ==> Get(r, k) == Get(c, k)
  {
    match Find(c, key)
    case Some(i) =>
      var r := c[i := Entry(key, v)];
      assert forall j :: 0 <= j < |r| ==> r[j].key == c[j].key;
      assert Keys(r) == Keys(c);
      r
    case None =>
      var r := c + [Entry(key, v)];
      assert forall j :: 0 <= j < |c| ==> r[j] == c[j];
      assert r[|c|].key == key;
      assert key in Keys(r);
      assert Keys(r) == Keys(c) + {key};
      r
  }

  /** Entry `e` placed into an ascending cart that lacks its key. */
  function Insert(e: Entry, c: Cart): (r: Cart)
    requires e.key !in Keys(c)
    ensures |r| == |c| + 1
    ensures forall x :: x in r <==> x == e || x in c
  {
    if |c| == 0 then [e]
    else if Before(e.key, c[0].key) then
      forall j | 0 < j < |c|
        ensures Before(e.key, c[j].key)
      {
        BeforeTransitive(e.key, c[0].key, c[j].key);
      }
      [e] + c
    else
      assert c[0].key in Keys(c);
      BeforeTrichotomy(e.key, c[0].key);
      var tail: Cart := c[1..];
      assert Keys(tail) <= Keys(c);
      var rest := Insert(e, tail);
      assert forall x :: x in c <==> x == c[0] || x in tail;
      forall j | 0 <= j < |rest|
        ensures Before(c[0].key, rest[j].key)
      {
        if rest[j] != e {
          assert rest[j] in rest;
          var k :| 0 <= k < |tail| && tail[k] == rest[j];
          assert c[k + 1] == rest[j];
        }
      }
      [c[0]] + rest
  }

  /**
   * The cart as the session cookie stores it: the same entries, re-ordered by
   * key (JSON with sorted keys).
   */
  function Save(d: Dict): (r: Cart)
    ensures |r| == |d|
    ensures forall x :: x in r <==> x in d
  {
    if |d| == 0 then []
    else
      var prefix: Dict := d[..|d| - 1];
      var last := d[|d| - 1];
      var saved := Save(prefix);
      assert forall x :: x in d <==> x == last || x in prefix;
      forall i | 0 <= i < |saved|
        ensures saved[i].key != last.key
      {
        assert saved[i] in saved;
        var j :| 0 <= j < |prefix| && prefix[j] == saved[i];
        assert d[j] == saved[i];
      }
      Insert(last, saved)
  }

  /** Saving keeps every key and every quantity of the dictionary. */
  lemma SaveKeepsContents(d: Dict)
    ensures Keys(Save(d)) == Keys(d)
    ensures forall k :: Get(Save(d), k) == Get(d, k)
  {
    var r := Save(d);
    forall k
      ensures k in Keys(r) <==> k in Keys(d)
      ensures Get(r, k) == Get(d, k)
    {
      if k in Keys(r) {
        var i :| 0 <= i < |r| && r[i].key == k;
        assert r[i] in d;
      }
      if k in Keys(d) {
        var j :| 0 <= j < |d| && d[j].key == k;
        assert d[j] in r;
      }
    }
  }

  /**
   * `cart[key] = cart.get(key, 0) + quantity` on the cart read from the
   * cookie, then saved: `key` goes up by exactly `quantity`, nothing else
   * changes, and a new key adds one entry.
   */
  function Add(c: Cart, key: string, quantity: int): (r: Cart)
    ensures Get(r, key) == Get(c, key) + quantity
    ensures forall k :: k != key ==> Get(r, k) == Get(c, k)
    ensures Keys(r) == Keys(c) + {key}
    ensures |r| == |c| + (if key in Keys(c) then 0 else 1)
  {
    var d := Put(c, key, Get(c, key) + quantity);
    SaveKeepsContents(d);
    Save(d)
  }

  /** Two ascending carts with the same entries are the same cart. */
  lemma {:induction false} AscendingUnique(a: Cart, b: Cart)
    requires |a| == |b|
    requires forall x :: x in a <==> x in b
    ensures a == b
    decreases |a|
  {
    if |a| > 0 {
      assert a[0] in b && b[0] in a;
      var i :| 0 <= i < |b| && b[i] == a[0];
      var j :| 0 <= j < |a| && a[j] == b[0];
      if a[0] != b[0] {
        assert Before(b[0].key, a[0].key);
        assert Before(a[0].key, b[0].key);
        BeforeTrichotomy(a[0].key, b[0].key);
        assert false;
      }
      var ta: Cart := a[1..];
      var tb: Cart := b[1..];
      forall x
        ensures x in ta <==> x in tb
      {
        if x in ta {
          var k :| 0 <= k < |ta| && ta[k] == x;
          assert a[k + 1].key != a[0].key;
          assert a[k + 1] in a;
          var m :| 0 <= m < |b| && b[m] == x;
          assert m != 0;
          assert tb[m - 1] == x;
        }
        if x in tb {
          var k :| 0 <= k < |tb| && tb[k] == x;
          assert b[k + 1].key != b[0].key;
          assert b[k + 1] in b;
          var m :| 0 <= m < |a| && a[m] == x;
          assert m != 0;
          assert ta[m - 1] == x;
        }
      }
      AscendingUnique(ta, tb);
      assert a == [a[0]] + ta && b == [b[0]] + tb;
    }
  }

  /** Saving a cart read back from the cookie writes it back unchanged. */
  lemma SaveKeepsCart(c: Cart)
    ensures Save(c) == c
  {
    AscendingUnique(Save(c), c);
  }
}

=== FILE: decimal.dfy ===
/**
 * The conversions between item ids and session-cart keys. The cart is kept in
 * the session, whose keys are strings, so adding an item stores `str(item_id)`
 * and the cart page turns each key back into an id with `int(key)`.
 */
module Decimal {
  import opened Wrappers

  predicate IsDigit(c: char) {
    '0' <= c <= '9'
  }

  predicate AllDigits(s: string) {
    forall i :: 0 <= i < |s| ==> IsDigit(s[i])
  }

  function DigitChar(d: nat): (c: char)
    requires d < 10
    ensures IsDigit(c) && c as int - '0' as int == d
  {
    ('0' as int + d) as char
  }

  function DigitValue(c: char): (d: nat)
    requires IsDigit(c)
    ensures d < 10 && DigitChar(d) == c
  {
    c as int - '0' as int
  }

  /** The decimal digits of `n` without leading zeros. */
  function ShowNat(n: nat): (s: string)
    ensures |s| >= 1 && AllDigits(s)
    ensures s[0] == '0' <==> n == 0
  {
    if n < 10 then [DigitChar(n)] else ShowNat(n / 10) + [DigitChar(n % 10)]
  }

  /** `str(n)` on an int: a minus sign for negative numbers, then the digits. */
  function Show(n: int): string {
    if n < 0 then "-" + ShowNat(-n) else ShowNat(n)
  }

  /** The number a non-empty string of decimal digits denotes (leading zeros allowed). */
  function ValueOf(s: string): nat
    requires AllDigits(s)
  {
    if |s| == 0 then 0 else ValueOf(s[..|s| - 1]) * 10 + DigitValue(s[|s| - 1])
  }

  /**
   * `int(key)` on a cart key: an optional minus sign followed by at least one
   * digit; anything else is refused (in the source, a raised ValueError).
   */
  function Parse(s: string): Option<int> {
    if |s| >= 2 && s[0] == '-' && AllDigits(s[1..]) then Some(-(ValueOf(s[1..]) as int))
    else if |s| >= 1 && AllDigits(s) then Some(ValueOf(s))
    else None
  }

  /**
   * What `str()` writes: a minus sign exactly for a negative number, then at
   * least one digit, with a leading zero only for zero itself.
   */
  lemma ShowForm(n: int)
    ensures |Show(n)| >= 1
    ensures Show(n)[0] == '-' <==> n < 0
    ensures var digits := if n < 0 then Show(n)[1..] else Show(n);
      && |digits| >= 1
      && AllDigits(digits)
      && (digits[0] == '0' <==> n == 0)
  {
    if n < 0 {
      assert Show(n)[1..] == ShowNat(-n);
    }
  }

  /**
   * What `int()` accepts of a key: at least one digit, optionally after a
   * minus sign. A negative value needs the sign, and digits alone read as
   * their decimal value.
   */
  lemma ParseAccepts(s: string)
    ensures Parse(s).Some? <==>
      || (|s| >= 1 && AllDigits(s))
      || (|s| >= 2 && s[0] == '-' && AllDigits(s[1..]))
    ensures Parse(s).Some? && Parse(s).value < 0 ==> s[0] == '-'
    ensures Parse(s).Some? && s[0] != '-' ==> Parse(s).value == ValueOf(s)
  {
  }

  lemma {:induction false} ValueOfShowNat(n: nat)
    ensures ValueOf(ShowNat(n)) == n
  {
    if n >= 10 {
      var s := ShowNat(n);
      var prefix := ShowNat(n / 10);
      assert s == prefix + [DigitChar(n % 10)];
      assert s[..|s| - 1] == prefix;
      ValueOfShowNat(n / 10);
    }
  }

  /** Reading back a key written for id `n` yields `n`. */
  lemma ParseShow(n: int)
    ensures Parse(Show(n)) == Some(n)
  {
    if n < 0 {
      var digits := ShowNat(-n);
      var s := Show(n);
      assert s == "-" + digits;
      assert s[1..] == digits;
      ValueOfShowNat(-n);
      assert Parse(s) == Some(-(ValueOf(digits) as int));
      assert ValueOf(digits) == -n;
    } else {
      var s := ShowNat(n);
      assert IsDigit(s[0]);
      ValueOfShowNat(n);
      assert Parse(s) == Some(ValueOf(s));
      assert Show(n) == s;
    }
  }

  /** `s` is `str(n)` for the `n` that `int(s)` reads from it. */
  predicate Canonical(s: string) {
    Parse(s).Some? && Show(Parse(s).value) == s
  }

  /** Every key written by `str()` is canonical. */
  lemma ShowCanonical(n: int)
    ensures Canonical(Show(n))
  {
    ParseShow(n);
  }

  /** Distinct ids are written as distinct keys. */
  lemma ShowInjective(a: int, b: int)
    requires Show(a) == Show(b)
    ensures a == b
  {
    ParseShow(a);
    ParseShow(b);
  }
}

=== FILE: feedbacks.dfy ===
/**
 * Customer feedback and its moderation. A shopper's feedback is stored
 * unapproved; only an admin sees it until an admin approves it, and an admin
 * may instead delete it.
 */
module Feedbacks {
  import opened Wrappers
  import opened Ids
  import opened Schema

  /** GET /feedbacks: every row for an admin, the approved rows for anyone else. */
  function Visible(db: Store, session: Session): (r: map<int, Feedback>)
    ensures forall id :: id in r ==> id in db.feedback && r[id] == db.feedback[id]
    ensures forall id :: id in db.feedback ==>
      (id in r <==> IsAdmin(session) || db.feedback[id].approved)
  {
    if IsAdmin(session) then db.feedback
    else map id | id in db.feedback && db.feedback[id].approved :: db.feedback[id]
  }

  /**
   * POST /add_feedback. Only a logged-in non-admin may submit; a submission
   * with text adds one unapproved row signed with the session's email.
   */
  function AddFeedback(s: State, text: Option<string>): (r: Step)
    ensures r.outcome == Fail(NotAuthorized) <==> !Shopper(s.session)
    ensures r.outcome == Fail(EmptyText) <==> Shopper(s.session) && !Present(text)
    ensures r.outcome.Pass? <==> Shopper(s.session) && Present(text)
    ensures r.outcome.Fail? ==> r.next == s
    ensures r.outcome.Pass? ==>
      var id := NextId(s.db.feedback.Keys);
      && id !in s.db.feedback
      && r.next.db.feedback.Keys == s.db.feedback.Keys + {id}
      && r.next.db.feedback[id] == Feedback(s.session.user.value, text.value, false)
      && (forall k :: k in s.db.feedback ==> r.next.db.feedback[k] == s.db.feedback[k])
      && r.next.db == s.db.(feedback := r.next.db.feedback)
      && r.next.session == s.session
  {
    if !Shopper(s.session) then Step(Fail(NotAuthorized), s)
    else if !Present(text) then Step(Fail(EmptyText), s)
    else
      var id := NextId(s.db.feedback.Keys);
      var row := Feedback(s.session.user.value, text.value, false);
      Step(Pass, s.(db := s.db.(feedback := s.db.feedback[id := row])))
  }

  /** GET /admin/feedbacks/<id>/approve: the row stays and becomes approved. */
  function Approve(s: State, id: int): (r: Step)
    ensures r.outcome == Fail(NotAuthorized) <==> !IsAdmin(s.session)
    ensures r.outcome == Fail(NotFound) <==> IsAdmin(s.session) && id !in s.db.feedback
    ensures r.outcome.Pass? <==> IsAdmin(s.session) && id in s.db.feedback
    ensures r.outcome.Fail? ==> r.next == s
    ensures r.outcome.Pass? ==>
      && r.next.db.feedback.Keys == s.db.feedback.Keys
      && r.next.db.feedback[id].approved
      && r.next.db.feedback[id].author == s.db.feedback[id].author
      && r.next.db.feedback[id].text == s.db.feedback[id].text
      && (forall k :: k in s.db.feedback && k != id ==> r.next.db.feedback[k] == s.db.feedback[k])
      && r.next.db == s.db.(feedback := r.next.db.feedback)
      && r.next.session == s.session
  {
    if !IsAdmin(s.session) then Step(Fail(NotAuthorized), s)
    else if id !in s.db.feedback then Step(Fail(NotFound), s)
    else
      var row := s.db.feedback[id].(approved := true);
      Step(Pass, s.(db := s.db.(feedback := s.db.feedback[id := row])))
  }

  /** GET /admin/feedbacks/<id>/reject: exactly that row is deleted. */
  function Reject(s: State, id: int): (r: Step)
    ensures r.outcome == Fail(NotAuthorized) <==> !IsAdmin(s.session)
    ensures r.outcome == Fail(NotFound) <==> IsAdmin(s.session) && id !in s.db.feedback
    ensures r.outcome.Pass? <==> IsAdmin(s.session) && id in s.db.feedback
    ensures r.outcome.Fail? ==> r.next == s
    ensures r.outcome.Pass? ==>
      && r.next.db.feedback.Keys == s.db.feedback.Keys - {id}
      && (forall k :: k in r.next.db.feedback ==> r.next.db.feedback[k] == s.db.feedback[k])
      && |r.next.db.feedback| == |s.db.feedback| - 1
      && r.next.db == s.db.(feedback := r.next.db.feedback)
      && r.next.session == s.session
  {
    if !IsAdmin(s.session) then Step(Fail(NotAuthorized), s)
    else if id !in s.db.feedback then Step(Fail(NotFound), s)
    else Step(Pass, s.(db := s.db.(feedback := s.db.feedback - {id})))
  }

  /** A fresh submission is hidden from every non-admin and shown to admins. */
  lemma SubmittedAwaitsApproval(s: State, text: Option<string>, viewer: Session)
    requires AddFeedback(s, text).outcome.Pass?
    ensures var id := NextId(s.db.feedback.Keys);
      var db := AddFeedback(s, text).next.db;
      && (IsAdmin(viewer) <==> id in Visible(db, viewer))
      && (forall k :: k in s.db.feedback ==>
            (k in Visible(db, viewer) <==> k in Visible(s.db, viewer)))
  {
  }

  /** Once approved, a row is shown to every viewer, unchanged apart from the flag. */
  lemma ApprovedIsPublic(s: State, id: int, viewer: Session)
    requires Approve(s, id).outcome.Pass?
    ensures var v := Visible(Approve(s, id).next.db, viewer);
      id in v && v[id].text == s.db.feedback[id].text && v[id].author == s.db.feedback[id].author
  {
  }

  /** Once rejected, a row is shown to nobody, and every other row's visibility is unchanged. */
  lemma RejectedIsGone(s: State, id: int, viewer: Session)
    requires Reject(s, id).outcome.Pass?
    ensures var v := Visible(Reject(s, id).next.db, viewer);
      && id !in v
      && forall k :: k != id ==> (k in v <==> k in Visible(s.db, viewer))
  {
  }
}

=== FILE: ids.dfy ===
/**
 * Row-id allocation. Every table has an integer primary key that the database
 * assigns on insert: one more than the largest id in the table, or 1 when the
 * table is empty.
 */
module Ids {

  /** A set with no members is the empty set. */
  lemma NoMembers(s: set<int>)
    requires forall y :: y !in s
    ensures s == {}
  {
    assert forall y :: y in s <==> y in {};
  }

  /** A non-empty set has a member. */
  lemma HasMember(s: set<int>)
    requires s != {}
    ensures exists x :: x in s
  {
    if forall y :: y !in s {
      NoMembers(s);
      assert false;
    }
  }

  /** `x` is the largest member of `s`. */
  predicate IsMax(s: set<int>, x: int) {
    x in s && forall k :: k in s ==> k <= x
  }

  /** When `x` is all there is, it is the largest member. */
  lemma OnlyMember(s: set<int>, x: int)
    requires x in s && |s - {x}| == 0
    ensures IsMax(s, x)
  {
    assert s - {x} == {};
    forall k | k in s
      ensures k <= x
    {
      assert k in (s - {x}) + {x};
    }
  }

  /** Putting `x` back beside the largest member `m` of the rest. */
  lemma MaxWith(s: set<int>, x: int, m: int)
    requires x in s && IsMax(s - {x}, m)
    ensures IsMax(s, if x <= m then m else x)
  {
    forall k | k in s
      ensures k <= (if x <= m then m else x)
    {
      if k != x {
        assert k in s - {x};
      }
    }
  }

  /** A non-empty set has a largest member. */
  lemma {:induction false} MaxExists(s: set<int>)
    requires s != {}
    ensures exists m :: IsMax(s, m)
    decreases |s|
  {
    HasMember(s);
    var x :| x in s;
    var rest := s - {x};
    if |rest| == 0 {
      OnlyMember(s, x);
    } else {
      MaxExists(rest);
      var m :| IsMax(rest, m);
      MaxWith(s, x, m);
    }
  }

  function Max(s: set<int>): (m: int)
    requires s != {}
    ensures m in s
    ensures forall k :: k in s ==> k <= m
  {
    MaxExists(s);
    var m :| IsMax(s, m);
    m
  }

  /** The id the next inserted row receives. */
  function NextId(s: set<int>): (r: int)
    ensures r !in s
    ensures forall k :: k in s ==> k < r
    ensures s == {} ==> r == 1
    ensures s != {} ==> r - 1 in s
  {
    if s == {} then 1 else Max(s) + 1
  }
}

=== FILE: invariants.dfy ===
/**
 * Every handler keeps the store and session Valid: cart keys are ids written
 * by str(), quantities are positive, no order line is orphaned, and the
 * session names a registered user with that user's role.
 */
module Invariants {
  import opened Wrappers
  import opened Decimal
  import opened Ids
  import opened Cart
  import opened Schema
  import opened Accounts
  import opened Shop
  import opened Feedbacks
  import opened Orders

  /** A fresh visitor on a store without orders is Valid. */
  lemma InitialValid(db: Store)
    requires db.orderItems == map[]
    ensures Valid(State(db, EmptySession))
  {
  }

  lemma RegisterPreservesValid(s: State, email: Option<string>, password: Option<string>,
                               confirm: Option<string>, hash: string -> string)
    requires Valid(s)
    ensures Valid(Register(s, email, password, confirm, hash).next)
  {
  }

  lemma LoginPreservesValid(s: State, email: string, password: string,
                            checkHash: (string, string) -> bool)
    requires Valid(s)
    ensures Valid(Login(s, email, password, checkHash).next)
  {
  }

  lemma LogoutPreservesValid(s: State)
    requires Valid(s)
    ensures Valid(Logout(s).next)
  {
  }

  lemma AddToCartPreservesValid(s: State, itemId: int, quantity: int)
    requires Valid(s)
    ensures Valid(AddToCart(s, itemId, quantity).next)
  {
    if AddToCart(s, itemId, quantity).outcome.Pass? {
      ShowCanonical(itemId);
      AddKeepsCanonical(s.session.cart, Show(itemId), quantity);
    }
  }

  /**
   * Adding a positive quantity under a canonical key keeps a canonical cart
   * canonical.
   */
  lemma AddKeepsCanonical(c: Cart, key: string, quantity: int)
    requires CanonicalCart(c) && Canonical(key) && quantity >= 1
    ensures CanonicalCart(Add(c, key, quantity))
  {
    var r := Add(c, key, quantity);
    forall i | 0 <= i < |r|
      ensures Canonical(r[i].key) && r[i].qty >= 1
    {
      var k := r[i].key;
      assert k in Keys(c) + {key} by {
        assert k in Keys(r);
      }
      assert r[i].qty == Get(c, k) + (if k == key then quantity else 0) by {
        assert r[i].qty == Get(r, k);
      }
      if k in Keys(c) {
        var j :| 0 <= j < |c| && c[j].key == k;
        assert Get(c, k) == c[j].qty;
      }
    }
  }

  lemma CheckoutPreservesValid(s: State)
    requires Valid(s)
    ensures Valid(Checkout(s).next)
  {
    var r := Checkout(s);
    if r.outcome.Pass? {
      var lines := Resolve(s.session.cart, s.db.items).value;
      var oid := NextId(s.db.orders.Keys);
      var base := NextId(s.db.orderItems.Keys);
      var db := r.next.db;
      forall k | k in db.orderItems
        ensures db.orderItems[k].orderId in db.orders
      {
        if k !in s.db.orderItems {
          var j := k - base;
          assert 0 <= j < |lines|;
          assert db.orderItems[base + j] ==
            OrderItem(oid, lines[j].name, lines[j].quantity, lines[j].price);
        }
      }
    }
  }

  lemma AddFeedbackPreservesValid(s: State, text: Option<string>)
    requires Valid(s)
    ensures Valid(AddFeedback(s, text).next)
  {
  }

  lemma ApprovePreservesValid(s: State, id: int)
    requires Valid(s)
    ensures Valid(Approve(s, id).next)
  {
  }

  lemma RejectPreservesValid(s: State, id: int)
    requires Valid(s)
    ensures Valid(Reject(s, id).next)
  {
  }

  lemma DeleteOrderPreservesValid(s: State, orderId: int)
    requires Valid(s)
    ensures Valid(DeleteOrder(s, orderId).next)
  {
  }

  /**
   * In a Valid state the cart page never fails, and it shows each item at
   * most once.
   */
  lemma ValidCartResolves(s: State)
    requires Valid(s)
    ensures Resolve(s.session.cart, s.db.items).Success?
    ensures var lines := Resolve(s.session.cart, s.db.items).value;
      forall j1, j2 :: 0 <= j1 < j2 < |lines| ==> lines[j1].id != lines[j2].id
  {
    var c := s.session.cart;
    forall i | 0 <= i < |c|
      ensures Parse(c[i].key).Some?
    {
      assert Canonical(c[i].key);
    }
    DistinctIds(c, s.db.items);
  }

  lemma {:induction false} DistinctIds(c: Cart, items: map<int, Item>)
    requires CanonicalCart(c)
    requires Resolve(c, items).Success?
    ensures var lines := Resolve(c, items).value;
      forall j1, j2 :: 0 <= j1 < j2 < |lines| ==> lines[j1].id != lines[j2].id
  {
    if |c| > 0 {
      var prefix: Cart := c[..|c| - 1];
      var last := c[|c| - 1];
      assert forall i :: 0 <= i < |prefix| ==> prefix[i] == c[i];
      DistinctIds(prefix, items);
      ResolveSound(prefix, items);
      var before := Resolve(prefix, items).value;
      var lines := Resolve(c, items).value;
      var id := Parse(last.key).value;
      if id in items {
        forall j | 0 <= j < |before|
          ensures before[j].id != id
        {
          var i :| 0 <= i < |prefix| && Describes(prefix[i], items, before[j]);
          assert Canonical(prefix[i].key) && Canonical(last.key);
          assert prefix[i].key == Show(before[j].id);
          assert last.key == Show(id);
          assert prefix[i].key != last.key;
        }
        assert forall j :: 0 <= j < |before| ==> lines[j] == before[j];
      }
    }
  }
}

=== FILE: orders.dfy ===
/**
 * Order deletion by an admin. An order owns its order-item rows, so deleting
 * the order deletes them with it.
 */
module Orders {
  import opened Wrappers
  import opened Ids
  import opened Schema
  import opened Shop

  /** The ids of the order-item rows that belong to order `orderId`. */
  function LinesOf(db: Store, orderId: int): set<int> {
    set k | k in db.orderItems && db.orderItems[k].orderId == orderId
  }

  /** Deleting order `orderId` from the tables, cascading to its lines. */
  function RemoveOrder(db: Store, orderId: int): (r: Store)
    ensures r.orders.Keys == db.orders.Keys - {orderId}
    ensures forall o :: o in r.orders ==> r.orders[o] == db.orders[o]
    ensures r.orderItems.Keys == db.orderItems.Keys - LinesOf(db, orderId)
    ensures forall k :: k in r.orderItems ==> r.orderItems[k] == db.orderItems[k]
    ensures LinesOf(r, orderId) == {}
    ensures r == db.(orders := r.orders, orderItems := r.orderItems)
  {
    var kept := map k | k in db.orderItems && db.orderItems[k].orderId != orderId :: db.orderItems[k];
    db.(orders := db.orders - {orderId}, orderItems := kept)
  }

  /**
   * POST /admin/orders/delete/<id>: the order and every one of its lines go;
   * all other orders and lines stay as they were.
   */
  function DeleteOrder(s: State, orderId: int): (r: Step)
    ensures r.outcome == Fail(NotAuthorized) <==> !IsAdmin(s.session)
    ensures r.outcome == Fail(NotFound) <==> IsAdmin(s.session) && orderId !in s.db.orders
    ensures r.outcome.Pass? <==> IsAdmin(s.session) && orderId in s.db.orders
    ensures r.outcome.Fail? ==> r.next == s
    ensures r.outcome.Pass? ==>
      && r.next.db.orders.Keys == s.db.orders.Keys - {orderId}
      && (forall o :: o in r.next.db.orders ==> r.next.db.orders[o] == s.db.orders[o])
      && r.next.db.orderItems.Keys == s.db.orderItems.Keys - LinesOf(s.db, orderId)
      && (forall k :: k in r.next.db.orderItems ==> r.next.db.orderItems[k] == s.db.orderItems[k])
      && LinesOf(r.next.db, orderId) == {}
      && r.next.db.users == s.db.users
      && r.next.db.items == s.db.items
      && r.next.db.feedback == s.db.feedback
      && r.next.session == s.session
  {
    if !IsAdmin(s.session) then Step(Fail(NotAuthorized), s)
    else if orderId !in s.db.orders then Step(Fail(NotFound), s)
    else Step(Pass, s.(db := RemoveOrder(s.db, orderId)))
  }

  /**
   * Removing the order just placed gives back exactly the tables from before:
   * the placed rows are all that order owns.
   */
  lemma RemoveUndoesPlace(db: Store, email: string, lines: seq<CartLine>)
    requires NoOrphanLines(db)
    ensures RemoveOrder(PlaceOrder(db, email, lines), NextId(db.orders.Keys)) == db
  {
    var placed := PlaceOrder(db, email, lines);
    PlaceOrderFacts(db, email, lines);
    var oid := NextId(db.orders.Keys);
    var base := NextId(db.orderItems.Keys);
    var r := RemoveOrder(placed, oid);
    forall k | k in placed.orderItems
      ensures placed.orderItems[k].orderId == oid <==> k !in db.orderItems
    {
      if k !in db.orderItems {
        var j := k - base;
        assert 0 <= j < |lines|;
        assert placed.orderItems[base + j] ==
          OrderItem(oid, lines[j].name, lines[j].quantity, lines[j].price);
      }
    }
    assert r.orders == db.orders;
    assert r.orderItems == db.orderItems;
  }

  /**
   * Deleting the order a checkout just placed restores the store as it was
   * before the checkout.
   */
  lemma DeleteUndoesCheckout(s: State, admin: Session)
    requires NoOrphanLines(s.db)
    requires Checkout(s).outcome.Pass?
    requires IsAdmin(admin)
    ensures var r := DeleteOrder(State(Checkout(s).next.db, admin), NextId(s.db.orders.Keys));
      r.outcome.Pass? && r.next.db == s.db
  {
    var lines := Resolve(s.session.cart, s.db.items).value;
    assert Checkout(s).next.db == PlaceOrder(s.db, s.session.user.value, lines);
    RemoveUndoesPlace(s.db, s.session.user.value, lines);
  }
}

=== FILE: schema.dfy ===
/**
 * The storefront's state: the five database tables and the visitor's session.
 * Every request handler is a transition from one State to the next.
 */
module Schema {
  import opened Wrappers
  import opened Decimal
  import opened Cart

  /** The `role` column: the string 'user' (the default) or 'admin'. */
  datatype Role = Customer | Admin

  /** A `user` row, keyed by its unique email. */
  datatype User = User(password: string, role: Role)

  /** An `item` row of the catalogue. */
  datatype Item = Item(name: string, describe: string, price: int)

  /** A `feedback` row; new rows wait for an admin's approval. */
  datatype Feedback = Feedback(author: string, text: string, approved: bool)

  /** An `order` row: whose order it is. Its lines live in the order-item table. */
  datatype Order = Order(userEmail: string)

  /** An `order_item` row: a copy of an item's name and price at checkout time. */
  datatype OrderItem = OrderItem(orderId: int, itemName: string, quantity: int, price: int)

  datatype Store = Store(
    users: map<string, User>,
    items: map<int, Item>,
    feedback: map<int, Feedback>,
    orders: map<int, Order>,
    orderItems: map<int, OrderItem>)

  /** The signed session: the logged-in email, its role, and the cart. */
  datatype Session = Session(user: Option<string>, role: Option<Role>, cart: Cart)

  datatype State = State(db: Store, session: Session)

  /** Why a request had no effect. */
  datatype Error =
    | NotAuthorized     // redirected to the login page
    | MissingFields     // a registration field is absent or empty
    | PasswordMismatch  // password and confirmation differ
    | DuplicateEmail    // the email is already registered
    | BadCredentials    // unknown email or wrong password
    | InvalidData       // unknown item or quantity below 1
    | MalformedCart     // a cart key that int() rejects
    | EmptyCart         // nothing in the cart resolves to an item
    | EmptyText         // feedback without text
    | NotFound          // no row with the requested id

  /** What a request handler did, and the state after it. */
  datatype Step = Step(outcome: Outcome<Error>, next: State)

  const EmptySession: Session := Session(None, None, [])

  /** `is_logged_in()`. */
  predicate LoggedIn(s: Session) {
    s.user.Some?
  }

  /** `is_admin()`. */
  predicate IsAdmin(s: Session) {
    s.role == Some(Admin)
  }

  /** The gate on the cart, checkout and feedback-submission pages. */
  predicate Shopper(s: Session) {
    LoggedIn(s) && !IsAdmin(s)
  }

  /** A form field counts as given when it is present and non-empty. */
  predicate Present(field: Option<string>) {
    field.Some? && |field.value| > 0
  }

  /** Every cart key is `str(id)` of some id, and every quantity is at least 1. */
  predicate CanonicalCart(c: seq<Entry>) {
    forall i :: 0 <= i < |c| ==>
      && Canonical(c[i].key)
      && c[i].qty >= 1
  }

  /** No order line outlives its order. */
  predicate NoOrphanLines(db: Store) {
    forall k :: k in db.orderItems ==> db.orderItems[k].orderId in db.orders
  }

  /** The session's identity is a registered user, with that user's role. */
  predicate SessionMatches(db: Store, s: Session) {
    && (s.user.Some? ==> s.user.value in db.users && s.role == Some(db.users[s.user.value].role))
    && (s.user.None? ==> s.role.None?)
  }

  /**
   * The invariant of the storefront: it holds of a fresh visitor on a store
   * without orders, and every handler keeps it.
   */
  predicate Valid(s: State) {
    && CanonicalCart(s.session.cart)
    && NoOrphanLines(s.db)
    && SessionMatches(s.db, s.session)
  }
}

=== FILE: shop.dfy ===
/**
 * The shopping flow: adding to the session cart, viewing it against the
 * catalogue, and checking out into an order with snapshot lines.
 */
module Shop {
  import opened Wrappers
  import opened Decimal
  import opened Ids
  import opened Cart
  import opened Schema

  /**
   * POST /orders. A shopper adds `quantity` of an existing item: the item's
   * key goes up by exactly that amount (an absent key counting as 0), and no
   * other key changes. The session is then saved, which puts the keys in
   * ascending order.
   */
  function AddToCart(s: State, itemId: int, quantity: int): (r: Step)
    ensures r.outcome == Fail(NotAuthorized) <==> !Shopper(s.session)
    ensures r.outcome == Fail(InvalidData) <==>
      Shopper(s.session) && (itemId !in s.db.items || quantity < 1)
    ensures r.outcome.Pass? <==> Shopper(s.session) && itemId in s.db.items && quantity >= 1
    ensures r.outcome.Fail? ==> r.next == s
    ensures r.outcome.Pass? ==>
      var key := Show(itemId);
      var before := s.session.cart;
      var after := r.next.session.cart;
      && Get(after, key) == Get(before, key) + quantity
      && (forall k :: k != key ==> Get(after, k) == Get(before, k))
      && Keys(after) == Keys(before) + {key}
      && |after| == |before| + (if key in Keys(before) then 0 else 1)
      && r.next.db == s.db
      && r.next.session.user == s.session.user
      && r.next.session.role == s.session.role
  {
    if !Shopper(s.session) then Step(Fail(NotAuthorized), s)
    else if itemId !in s.db.items || quantity < 1 then Step(Fail(InvalidData), s)
    else
      Step(Pass, s.(session := s.session.(cart := Add(s.session.cart, Show(itemId), quantity))))
  }

  /** One row of the cart page. */
  datatype CartLine = CartLine(id: int, name: string, price: int, quantity: int, totalPrice: int)

  /** The cart page: its rows and their grand total. */
  datatype CartView = CartView(lines: seq<CartLine>, total: int)

  /** Whether a cart entry names an item of the catalogue. */
  predicate Known(e: Entry, items: map<int, Item>) {
    Parse(e.key).Some? && Parse(e.key).value in items
  }

  /** `l` is the row the cart page shows for entry `e`. */
  predicate Describes(e: Entry, items: map<int, Item>, l: CartLine) {
    && Parse(e.key) == Some(l.id)
    && l.id in items
    && l.name == items[l.id].name
    && l.price == items[l.id].price
    && l.quantity == e.qty
    && l.totalPrice == l.price * l.quantity
  }

  function LineFor(id: int, item: Item, qty: int): CartLine {
    CartLine(id, item.name, item.price, qty, item.price * qty)
  }

  /**
   * The rows of the cart page, in cart order. Entries whose item is gone are
   * skipped; a key that is not a number fails the whole page.
   */
  function Resolve(c: seq<Entry>, items: map<int, Item>): (r: Result<seq<CartLine>, Error>)
    ensures r.Failure? <==> exists i :: 0 <= i < |c| && Parse(c[i].key).None?
    ensures r.Failure? ==> r.error == MalformedCart
    ensures r.Success? ==> |r.value| <= |c|
  {
    if |c| == 0 then Success([])
    else
      var last := c[|c| - 1];
      assert forall i :: 0 <= i < |c| - 1 ==> c[..|c| - 1][i] == c[i];
      match Resolve(c[..|c| - 1], items)
      case Failure(e) => Failure(e)
      case Success(lines) =>
        match Parse(last.key)
        case None => Failure(MalformedCart)
        case Some(id) =>
          if id in items then Success(lines + [LineFor(id, items[id], last.qty)])
          else Success(lines)
  }

  /** How many entries of the cart name an item of the catalogue. */
  function CountKnown(c: seq<Entry>, items: map<int, Item>): nat {
    if |c| == 0 then 0
    else CountKnown(c[..|c| - 1], items) + (if Known(c[|c| - 1], items) then 1 else 0)
  }

  /** The grand total: price times quantity, summed over the rows. */
  function Subtotal(lines: seq<CartLine>): int {
    if |lines| == 0 then 0
    else Subtotal(lines[..|lines| - 1]) + lines[|lines| - 1].price * lines[|lines| - 1].quantity
  }

  /** The cart page has one row per entry that names an existing item. */
  lemma {:induction false} ResolveCount(c: seq<Entry>, items: map<int, Item>)
    requires Resolve(c, items).Success?
    ensures |Resolve(c, items).value| == CountKnown(c, items)
  {
    if |c| > 0 {
      assert forall i :: 0 <= i < |c| - 1 ==> c[..|c| - 1][i] == c[i];
      ResolveCount(c[..|c| - 1], items);
    }
  }

  /** Every row of the cart page describes some entry of the cart. */
  lemma {:induction false} ResolveSound(c: seq<Entry>, items: map<int, Item>)
    requires Resolve(c, items).Success?
    ensures var lines := Resolve(c, items).value;
      forall j :: 0 <= j < |lines| ==> exists i :: 0 <= i < |c| && Describes(c[i], items, lines[j])
  {
    if |c| > 0 {
      var prefix := c[..|c| - 1];
      var last := c[|c| - 1];
      assert forall i :: 0 <= i < |prefix| ==> prefix[i] == c[i];
      ResolveSound(prefix, items);
      var before := Resolve(prefix, items).value;
      var lines := Resolve(c, items).value;
      forall j | 0 <= j < |lines|
        ensures exists i :: 0 <= i < |c| && Describes(c[i], items, lines[j])
      {
        if j < |before| {
          assert lines[j] == before[j];
          var i :| 0 <= i < |prefix| && Describes(prefix[i], items, before[j]);
          assert Describes(c[i], items, lines[j]);
        } else {
          assert Describes(c[|c| - 1], items, lines[j]);
        }
      }
    }
  }

  /**
   * Every entry of the cart that names an existing item has a row, placed
   * after the rows of the entries before it.
   */
  lemma {:induction false} ResolveComplete(c: seq<Entry>, items: map<int, Item>)
    requires Resolve(c, items).Success?
    ensures var lines := Resolve(c, items).value;
      forall i :: 0 <= i < |c| && Known(c[i], items) ==>
        CountKnown(c[..i], items) < |lines| && Describes(c[i], items, lines[CountKnown(c[..i], items)])
  {
    if |c| > 0 {
      var prefix := c[..|c| - 1];
      ResolveComplete(prefix, items);
      ResolveCount(prefix, items);
      var before := Resolve(prefix, items).value;
      var lines := Resolve(c, items).value;
      assert forall j :: 0 <= j < |before| ==> lines[j] == before[j];
      forall i | 0 <= i < |c| && Known(c[i], items)
        ensures CountKnown(c[..i], items) < |lines|
        ensures Describes(c[i], items, lines[CountKnown(c[..i], items)])
      {
        if i < |prefix| {
          assert prefix[i] == c[i];
          assert prefix[..i] == c[..i];
          var j := CountKnown(prefix[..i], items);
          assert Describes(prefix[i], items, before[j]);
        } else {
          assert c[..i] == prefix;
          assert lines[|before|] == LineFor(Parse(c[i].key).value, items[Parse(c[i].key).value], c[i].qty);
        }
      }
    }
  }

  /** Every row's total is its own price times its quantity. */
  lemma {:induction false} LineTotals(c: seq<Entry>, items: map<int, Item>)
    requires Resolve(c, items).Success?
    ensures var lines := Resolve(c, items).value;
      forall j :: 0 <= j < |lines| ==> lines[j].totalPrice == lines[j].price * lines[j].quantity
  {
    if |c| > 0 {
      assert forall i :: 0 <= i < |c| - 1 ==> c[..|c| - 1][i] == c[i];
      LineTotals(c[..|c| - 1], items);
    }
  }

  /** Resolving one more entry of the cart extends the rows resolved so far. */
  lemma ResolveStep(c: seq<Entry>, i: nat, items: map<int, Item>, lines: seq<CartLine>)
    requires i < |c| && Resolve(c[..i], items) == Success(lines)
    ensures Parse(c[i].key).None? ==> Resolve(c[..i + 1], items) == Failure(MalformedCart)
    ensures Parse(c[i].key).Some? && Parse(c[i].key).value in items ==>
      var id := Parse(c[i].key).value;
      Resolve(c[..i + 1], items) == Success(lines + [LineFor(id, items[id], c[i].qty)])
    ensures Parse(c[i].key).Some? && Parse(c[i].key).value !in items ==>
      Resolve(c[..i + 1], items) == Success(lines)
  {
    assert c[..i + 1][..i] == c[..i];
    assert c[..i + 1][i] == c[i];
  }

  /**
   * GET /cart, the loop of the source: walk the cart in order, look each key
   * up, and for each item found add a row and its subtotal to the running
   * total.
   */
  method ViewCart(s: State) returns (r: Result<CartView, Error>)
    ensures r.Failure? <==>
      !Shopper(s.session) || Resolve(s.session.cart, s.db.items).Failure?
    ensures r.Failure? ==> r.error == (if Shopper(s.session) then MalformedCart else NotAuthorized)
    ensures r.Success? ==> r.value.lines == Resolve(s.session.cart, s.db.items).value
    ensures r.Success? ==> r.value.total == Subtotal(r.value.lines)
  {
    if !Shopper(s.session) {
      return Failure(NotAuthorized);
    }
    var cart := s.session.cart;
    var items := s.db.items;
    var lines: seq<CartLine> := [];
    var total := 0;
    var i := 0;
    while i < |cart|
      invariant 0 <= i <= |cart|
      invariant Resolve(cart[..i], items) == Success(lines)
      invariant total == Subtotal(lines)
    {
      var e := cart[i];
      ResolveStep(cart, i, items, lines);
      match Parse(e.key)
      case None =>
        assert Resolve(cart, items).Failure?;
        return Failure(MalformedCart);
      case Some(id) =>
        if id in items {
          var before := lines;
          lines := lines + [LineFor(id, items[id], e.qty)];
          assert lines[..|lines| - 1] == before;
          total := total + items[id].price * e.qty;
        }
      i := i + 1;
    }
    assert cart[..i] == cart;
    return Success(CartView(lines, total));
  }

  /** The order-item rows for `lines`, numbered from `base`, all in order `orderId`. */
  function Snapshot(lines: seq<CartLine>, orderId: int, base: int): (m: map<int, OrderItem>)
    ensures forall k :: k in m <==> base <= k < base + |lines|
    ensures forall j :: 0 <= j < |lines| ==>
      m[base + j] == OrderItem(orderId, lines[j].name, lines[j].quantity, lines[j].price)
  {
    if |lines| == 0 then map[]
    else
      var last := lines[|lines| - 1];
      assert forall j :: 0 <= j < |lines| - 1 ==> lines[..|lines| - 1][j] == lines[j];
      Snapshot(lines[..|lines| - 1], orderId, base)[base + |lines| - 1 :=
        OrderItem(orderId, last.name, last.quantity, last.price)]
  }

  /** Inserting an order and its lines under the next free ids. */
  function PlaceOrder(db: Store, email: string, lines: seq<CartLine>): Store {
    var oid := NextId(db.orders.Keys);
    var base := NextId(db.orderItems.Keys);
    db.(orders := db.orders[oid := Order(email)],
        orderItems := db.orderItems + Snapshot(lines, oid, base))
  }

  /**
   * The order takes a fresh order id, its lines take fresh consecutive
   * order-item ids, and every existing row is kept.
   */
  lemma PlaceOrderFacts(db: Store, email: string, lines: seq<CartLine>)
    ensures
      var r := PlaceOrder(db, email, lines);
      var oid := NextId(db.orders.Keys);
      var base := NextId(db.orderItems.Keys);
      && oid !in db.orders
      && r.orders.Keys == db.orders.Keys + {oid}
      && r.orders[oid] == Order(email)
      && (forall o :: o in db.orders ==> r.orders[o] == db.orders[o])
      && (forall k :: k in r.orderItems <==> k in db.orderItems || base <= k < base + |lines|)
      && (forall k :: k in db.orderItems ==> k < base && r.orderItems[k] == db.orderItems[k])
      && (forall j :: 0 <= j < |lines| ==>
            r.orderItems[base + j] == OrderItem(oid, lines[j].name, lines[j].quantity, lines[j].price))
      && r == db.(orders := r.orders, orderItems := r.orderItems)
  {
  }

  /**
   * POST /cart. With at least one row on the cart page, one order is added
   * for the session's user, one order-item row per cart row copying the
   * item's current name and price and the cart's quantity, and the cart is
   * removed. With no rows nothing happens, and the cart stays as it was.
   */
  function Checkout(s: State): (r: Step)
    ensures r.outcome == Fail(NotAuthorized) <==> !Shopper(s.session)
    ensures r.outcome == Fail(MalformedCart) <==>
      Shopper(s.session) && Resolve(s.session.cart, s.db.items).Failure?
    ensures r.outcome == Fail(EmptyCart) <==>
      Shopper(s.session) && Resolve(s.session.cart, s.db.items) == Success([])
    ensures r.outcome.Pass? <==>
      && Shopper(s.session)
      && Resolve(s.session.cart, s.db.items).Success?
      && |Resolve(s.session.cart, s.db.items).value| > 0
    ensures r.outcome.Fail? ==> r.next == s
    ensures r.outcome.Pass? ==>
      var lines := Resolve(s.session.cart, s.db.items).value;
      var oid := NextId(s.db.orders.Keys);
      var base := NextId(s.db.orderItems.Keys);
      && |lines| > 0
      && oid !in s.db.orders
      && r.next.db.orders.Keys == s.db.orders.Keys + {oid}
      && r.next.db.orders[oid] == Order(s.session.user.value)
      && (forall o :: o in s.db.orders ==> r.next.db.orders[o] == s.db.orders[o])
      && (forall k :: k in r.next.db.orderItems <==> k in s.db.orderItems || base <= k < base + |lines|)
      && (forall k :: k in s.db.orderItems ==> k < base && r.next.db.orderItems[k] == s.db.orderItems[k])
      && (forall j :: 0 <= j < |lines| ==>
            r.next.db.orderItems[base + j] ==
              OrderItem(oid, lines[j].name, lines[j].quantity, lines[j].price))
      && r.next.session.cart == []
      && r.next.session.user == s.session.user
      && r.next.session.role == s.session.role
      && r.next.db.users == s.db.users
      && r.next.db.items == s.db.items
      && r.next.db.feedback == s.db.feedback
  {
    if !Shopper(s.session) then Step(Fail(NotAuthorized), s)
    else
      match Resolve(s.session.cart, s.db.items)
      case Failure(e) => Step(Fail(e), s)
      case Success(lines) =>
        if |lines| == 0 then Step(Fail(EmptyCart), s)
        else
          PlaceOrderFacts(s.db, s.session.user.value, lines);
          Step(Pass, State(PlaceOrder(s.db, s.session.user.value, lines), s.session.(cart := [])))
  }

  /** `row` is the order line a checkout into order `orderId` writes for cart entry `e`. */
  predicate IsSnapshotOf(e: Entry, items: map<int, Item>, orderId: int, row: OrderItem) {
    && Parse(e.key).Some?
    && Parse(e.key).value in items
    && row == OrderItem(orderId, items[Parse(e.key).value].name, e.qty, items[Parse(e.key).value].price)
  }

  /** Each row of the snapshot of the cart page is the snapshot of a cart entry. */
  lemma {:induction false} SnapshotSound(c: seq<Entry>, items: map<int, Item>, lines: seq<CartLine>,
                                         orderId: int, base: int)
    requires Resolve(c, items) == Success(lines)
    ensures forall k :: k in Snapshot(lines, orderId, base) ==>
      exists i :: 0 <= i < |c| && IsSnapshotOf(c[i], items, orderId, Snapshot(lines, orderId, base)[k])
  {
    var m := Snapshot(lines, orderId, base);
    ResolveSound(c, items);
    forall k | k in m
      ensures exists i :: 0 <= i < |c| && IsSnapshotOf(c[i], items, orderId, m[k])
    {
      var j := k - base;
      assert m[base + j] == OrderItem(orderId, lines[j].name, lines[j].quantity, lines[j].price);
      var i :| 0 <= i < |c| && Describes(c[i], items, lines[j]);
      assert IsSnapshotOf(c[i], items, orderId, m[k]);
    }
  }

  /**
   * Each cart entry naming an existing item has its row in the snapshot, at
   * the position the entry holds among such entries.
   */
  lemma {:induction false} SnapshotRow(c: seq<Entry>, items: map<int, Item>, lines: seq<CartLine>,
                                       orderId: int, base: int, i: int)
    requires Resolve(c, items) == Success(lines)
    requires 0 <= i < |c| && Known(c[i], items)
    ensures base + CountKnown(c[..i], items) in Snapshot(lines, orderId, base)
    ensures IsSnapshotOf(c[i], items, orderId, Snapshot(lines, orderId, base)[base + CountKnown(c[..i], items)])
  {
    var m := Snapshot(lines, orderId, base);
    ResolveComplete(c, items);
    var j := CountKnown(c[..i], items);
    assert j < |lines| && Describes(c[i], items, lines[j]);
    assert m[base + j] == OrderItem(orderId, lines[j].name, lines[j].quantity, lines[j].price);
  }

  /** The new lines of a placed order are numbered consecutively, one per known cart entry. */
  lemma {:induction false} PlacedLineIds(db: Store, email: string, c: seq<Entry>, lines: seq<CartLine>)
    requires Resolve(c, db.items) == Success(lines)
    ensures var placed := PlaceOrder(db, email, lines);
      var base := NextId(db.orderItems.Keys);
      forall k :: k in placed.orderItems && k !in db.orderItems <==>
        base <= k < base + CountKnown(c, db.items)
  {
    ResolveCount(c, db.items);
  }

  /** Each new line of a placed order is the snapshot of some cart entry. */
  lemma {:induction false} PlacedLinesSound(db: Store, email: string, c: seq<Entry>, lines: seq<CartLine>)
    requires Resolve(c, db.items) == Success(lines)
    ensures var placed := PlaceOrder(db, email, lines);
      var oid := NextId(db.orders.Keys);
      forall k :: k in placed.orderItems && k !in db.orderItems ==>
        exists i :: 0 <= i < |c| && IsSnapshotOf(c[i], db.items, oid, placed.orderItems[k])
  {
    var oid := NextId(db.orders.Keys);
    var base := NextId(db.orderItems.Keys);
    var m := Snapshot(lines, oid, base);
    var placed := PlaceOrder(db, email, lines);
    assert placed.orderItems == db.orderItems + m;
    SnapshotSound(c, db.items, lines, oid, base);
    forall k | k in placed.orderItems && k !in db.orderItems
      ensures exists i :: 0 <= i < |c| && IsSnapshotOf(c[i], db.items, oid, placed.orderItems[k])
    {
      assert k in m && placed.orderItems[k] == m[k];
    }
  }

  /**
   * Cart entry `i` has, among the lines added going from `before` to `after`,
   * a snapshot row numbered `base` plus the number of entries ahead of it
   * that name an item.
   */
  predicate EntryPlaced(before: map<int, OrderItem>, after: map<int, OrderItem>,
                        c: seq<Entry>, items: map<int, Item>, orderId: int, base: int, i: int)
    requires 0 <= i < |c|
  {
    var k := base + CountKnown(c[..i], items);
    k in after && k !in before && IsSnapshotOf(c[i], items, orderId, after[k])
  }

  /** Every cart entry naming an item is placed in the sense of `EntryPlaced`. */
  predicate CoversCart(before: map<int, OrderItem>, after: map<int, OrderItem>,
                       c: seq<Entry>, items: map<int, Item>, orderId: int, base: int) {
    forall i :: 0 <= i < |c| && Known(c[i], items) ==>
      EntryPlaced(before, after, c, items, orderId, base, i)
  }

  /** Each known cart entry has its snapshot among the new lines, in cart order. */
  lemma {:induction false} PlacedLinesComplete(db: Store, email: string, c: seq<Entry>, lines: seq<CartLine>)
    requires Resolve(c, db.items) == Success(lines)
    ensures CoversCart(db.orderItems, PlaceOrder(db, email, lines).orderItems, c, db.items,
                       NextId(db.orders.Keys), NextId(db.orderItems.Keys))
  {
    var oid := NextId(db.orders.Keys);
    var base := NextId(db.orderItems.Keys);
    var after := db.orderItems + Snapshot(lines, oid, base);
    forall i | 0 <= i < |c| && Known(c[i], db.items)
      ensures EntryPlaced(db.orderItems, after, c, db.items, oid, base, i)
    {
      PlacedEntry(db.orderItems, c, db.items, lines, oid, base, i);
    }
    assert PlaceOrder(db, email, lines).orderItems == after;
  }

  /** The one line placed for known cart entry `i`, beside the lines already there. */
  lemma {:induction false} PlacedEntry(before: map<int, OrderItem>, c: seq<Entry>, items: map<int, Item>,
                                       lines: seq<CartLine>, orderId: int, base: int, i: int)
    requires Resolve(c, items) == Success(lines)
    requires 0 <= i < |c| && Known(c[i], items)
    requires forall k :: k in before ==> k < base
    ensures EntryPlaced(before, before + Snapshot(lines, orderId, base), c, items, orderId, base, i)
  {
    var m := Snapshot(lines, orderId, base);
    var k := base + CountKnown(c[..i], items);
    SnapshotRow(c, items, lines, orderId, base, i);
    assert k in m && IsSnapshotOf(c[i], items, orderId, m[k]);
    assert k !in before;
    assert (before + m)[k] == m[k];
  }

  /**
   * The lines a checkout writes, stated against the cart and the catalogue
   * (three lemmas): the new line ids are exactly one block, one per cart entry
   * that names an existing item ...
   */
  lemma {:induction false} CheckoutLineIds(s: State)
    requires Checkout(s).outcome.Pass?
    ensures var db := Checkout(s).next.db;
      var base := NextId(s.db.orderItems.Keys);
      forall k :: k in db.orderItems && k !in s.db.orderItems <==>
            base <= k < base + CountKnown(s.session.cart, s.db.items)
  {
    var c := s.session.cart;
    var lines := Resolve(c, s.db.items).value;
    var email := s.session.user.value;
    assert Checkout(s).next.db == PlaceOrder(s.db, email, lines);
    PlacedLineIds(s.db, email, c, lines);
  }

  /** ... every new line copies some cart entry and its item's current name and price ... */
  lemma {:induction false} CheckoutLinesSound(s: State)
    requires Checkout(s).outcome.Pass?
    ensures var db := Checkout(s).next.db;
      var oid := NextId(s.db.orders.Keys);
      var c := s.session.cart;
      forall k :: k in db.orderItems && k !in s.db.orderItems ==>
            exists i :: 0 <= i < |c| && IsSnapshotOf(c[i], s.db.items, oid, db.orderItems[k])
  {
    var c := s.session.cart;
    var lines := Resolve(c, s.db.items).value;
    var email := s.session.user.value;
    assert Checkout(s).next.db == PlaceOrder(s.db, email, lines);
    PlacedLinesSound(s.db, email, c, lines);
  }

  /** ... and every entry naming an existing item gets its line, in cart order. */
  lemma {:induction false} CheckoutLinesComplete(s: State)
    requires Checkout(s).outcome.Pass?
    ensures CoversCart(s.db.orderItems, Checkout(s).next.db.orderItems, s.session.cart, s.db.items,
                       NextId(s.db.orders.Keys), NextId(s.db.orderItems.Keys))
  {
    var c := s.session.cart;
    var lines := Resolve(c, s.db.items).value;
    var email := s.session.user.value;
    assert Checkout(s).next.db == PlaceOrder(s.db, email, lines);
    PlacedLinesComplete(s.db, email, c, lines);
  }
}

=== FILE: wrappers.dfy ===
/** Option, Result and Outcome: the failure-carrying values the handlers return. */
module Wrappers {

  /** A value that may be absent, such as a missing form field or session key. */
  datatype Option<+T> = None | Some(value: T)

  /** A computed value, or the reason it could not be computed. */
  datatype Result<+R, +E> = Success(value: R) | Failure(error: E)

  /** Whether a transition took effect, or the reason it was refused. */
  datatype Outcome<+E> = Pass | Fail(error: E)
}
